=== FILE: README.md ===
# MaybeError outcome types in Dafny

This project models the core of the MaybeError library. That core has three parts:

- **The error model.** An `Error` is an immutable record holding a message, optional details and optional developer details. An `ExceptionError` is an error that wraps an exception raised elsewhere.
- **The outcome types.** `Maybe`, `ValueMaybe`, `MaybeEx` and `ValueMaybeEx` each hold either a value or an error.
- **The projection operations.** `ValueOrDefault`, `As` and `AsOrDefault` read or map an outcome's value.

Everything is pure and immutable, so the model is written as datatypes and functions.

Modules:

- `Wrappers` (`wrappers.dfy`): `Option`, which stands for a nullable result, and `TextOf`, which gives the text that string interpolation prints for a nullable string.
- `Text` (`text.dfy`): `Join` and `Lines`. These join fields with newlines and split text back into lines. They let the model state that a log sink reading an error's text gets back the fields it was built from.
- `Exceptions` (`exceptions.dfy`): a host exception is `Exception(id, kind, message, stackTrace)`. Here `id` is object identity and `kind` is the exact run-time class (`BaseException` or `Derived(name)`). An evaluation that may raise is `Eval = Returned(value) | Thrown(exception)`. `Runtime(debug, freshId)` carries two things: the build flag that replaces `#if DEBUG`, and the identity the runtime gives the next exception object it allocates.
- `Errors` (`errors.dfy`): `Error(message, details, devDetails, origin)` with `origin = Plain(trace) | Wrapped(exception)`. The virtual `GetException`/`ToString` pair becomes a match on `origin`. `ErrorText` is the base class's `ToString`. `Render` is the overriding dispatch, and it is also what the implicit conversion to `string` returns.
- `Outcomes` (`outcomes.dfy`): all six outcome structs (`MaybeEx<T, Ex>`, `Maybe<T, E>`, `Maybe<T>`, `ValueMaybe<T, E>`, `ValueMaybe<T>` and `ValueMaybeEx<T, Ex>`) become one `Outcome<T> = Ok(value) | Err(error)`. They differ in storage layout, in the static type of their error, and in their sets of constructors and conversions. Each constructor or conversion maps to one `From*` function: for example, only `Maybe<T>` and `ValueMaybe<T>` have the constructor and conversion from an exception (`Outcomes.FromException`). The `init` accessor on `Error` exists only on `MaybeEx`, `Maybe<T, E>` and `ValueMaybeEx`, and the widening operators only on `MaybeEx`, `Maybe<T, E>`, `ValueMaybe<T, E>` and `ValueMaybeEx`. Both are listed under "## Left out". An exception-typed outcome is one whose error has a `Wrapped` origin (`IsExceptionTyped`). Every constructor and every implicit wrap operator is a function. The implicit unwrap operator is `Unwrap`.
- `Projections` (`projections.dfy`): each projection is defined once. The source has three copies of every projection: the interface defaults on `IMaybe` (`Maybe.cs` lines 15-46), the extension methods on `IValueMaybe` (`MaybeExtensions.cs` lines 7-38) and the extension methods on `IMaybe` (`MaybeExtensions.cs` lines 41-72). All three have the same body. A C# `default` result of reference or `Nullable` type (null) is `Option.None` (`ValueOrNull`, `AsOrNull`). For a value-type result, `default(R)` is passed explicitly as the fallback of `AsOrDefault`. For example, `0` is the fallback for an `int` result. The same holds for the `IMaybe` interface default `T? ValueOrDefault()` (`Maybe.cs` lines 22-27), whose `T` is unconstrained: at a value-type `T` such as `int` it returns `default(T)`, not null, which is `ValueOrDefault(o, 0)`; `ValueOrNull` models it at reference and `Nullable` payloads.
- `Scenarios` (`scenarios.dfy`): the library's own usage scenarios, restated as lemmas over the model.

Three modelling decisions follow directly from the code:

- **Parameterless constructor.** It only sets the value slot to `default` (`Maybe.cs` lines 190-193) and never sets `HasError`, so `HasError` is false, `HasValue` is true and `Value` returns the default of `T`. The model therefore has no third "empty" state: the constructor is `Outcomes.Default(dflt)`, a success holding that default.
- **Plain error's exception.** A release build constructs the exception from `Message` alone (`Error.cs` lines 30-31); only a diagnostic build passes the whole `ToString()` (`Error.cs` lines 28-29). `Errors.GetException` states both cases.
- **Outcome built from an exception.** `Maybe(Exception e)` stores `new ExceptionError(e)` (`Maybe.cs` lines 206-211), and `ExceptionError` overrides `GetException` to return the stored exception. So reading `Value` re-raises the original exception object (`Outcomes.FromException`).

## Model

| member | source | states |
|---|---|---|
| Errors.NewError | MaybeError/Errors/Error.cs:16-20 | message, details and devDetails are stored unchanged; details and devDetails are absent unless given; the error is not a wrapped one; a single-line message is the first line of its text |
| Errors.ExceptionError | MaybeError/Errors/ExceptionError.cs:22-25 | message is the exception's message, details absent, devDetails its stack trace, the field holds exactly the given exception, and GetException returns that exception in every build mode |
| Errors.ExceptionErrorWithMessage | MaybeError/Errors/ExceptionError.cs:17-20 | message is the given one, details the exception's message, devDetails its stack trace, the field holds exactly the given exception, and GetException returns it in every build mode |
| Errors.ErrorText | MaybeError/Errors/Error.cs:35-42 | the text starts with the message and a newline; release text is message and details joined by a newline; for a plain error, debug text is message, details, devDetails and "Trace:" plus the trace joined by newlines; absent fields print empty |
| Errors.Render | MaybeError/Errors/ExceptionError.cs:32-35 | a plain error renders as ErrorText; an exception error renders as its message and the exception's own text joined by a newline; every rendering starts with the message and a newline |
| Errors.GetException | MaybeError/Errors/Error.cs:26-33 | an exception error yields its stored exception itself; a plain error yields an object of exactly the base exception class, with the identity `rt.freshId` and no stack trace, with the message alone in release and the full debug text in a diagnostic build |
| Errors.ReleaseTextRoundTrip | MaybeError/Errors/Error.cs:39-40 | reading a release rendering back line by line gives exactly [message, details] when both are single lines |
| Errors.DebugTextRoundTrip | MaybeError/Errors/Error.cs:37-38 | reading the diagnostic rendering of a plain error back gives message, details and devDetails as its first three lines when each is a single line, followed by exactly the lines of "Trace:" + trace, for any (multi-line) trace |
| Errors.RenderLeadsWithMessage | MaybeError/Errors/Error.cs:44-47 | whatever the error kind and build mode, the first line of the string conversion is the message, when the message is a single line |
| Errors.WrappedRenderIgnoresMode | MaybeError/Errors/ExceptionError.cs:32-35 | an exception error's text is the same in release and diagnostic builds |
| Errors.DebugExceptionShowsDetails | MaybeError/Errors/Error.cs:28-29 | for a plain error in a diagnostic build, when the message and details are single lines, the raised exception's message has the error's message and details as its first two lines |
| Outcomes.HasValue | MaybeError/Maybe.cs:119 | HasValue is exactly the negation of HasError, the stored discriminant (modelled by `Outcomes.HasError`, which is the datatype's `Err?` test) |
| Outcomes.ErrorOf | MaybeError/Maybe.cs:120 | the Error property is present exactly when HasError, and is then the stored error |
| Outcomes.Value | MaybeError/Maybe.cs:121 | reading Value raises iff HasError, and raises exactly Error.GetException(); otherwise it returns the stored value |
| Outcomes.FromValue | MaybeError/Maybe.cs:198-201 | wrapping v gives HasValue, not HasError, no Error, and Value returns v in every build mode |
| Outcomes.FromError | MaybeError/Maybe.cs:216-221 | wrapping e gives HasError, Error equal to e, and Value raises e's exception |
| Outcomes.FromException | MaybeError/Maybe.cs:206-211 | wrapping an exception gives HasError with an ExceptionError around it, and Value raises that same exception object |
| Outcomes.Default | MaybeError/Maybe.cs:190-193 | the parameterless constructor is the success outcome holding T's default value |
| Outcomes.Unwrap | MaybeError/Maybe.cs:238-243 | the implicit conversion to T returns the value or raises Error.GetException(), agreeing with Value on every outcome |
| Outcomes.WrapThenUnwrap | MaybeError/Maybe.cs:223-226 | wrapping v then unwrapping returns v |
| Outcomes.UnwrapThenWrap | MaybeError/Maybe.cs:167-172 | a successful unwrap re-wrapped rebuilds the outcome; a raising unwrap came from an error outcome |
| Outcomes.ThrownKinds | MaybeError/ValueMaybe.cs:119-124 | a plain error raises exactly the base exception class with its message in release; an exception error raises its original exception |
| Projections.ValueOrDefault | MaybeError/MaybeExtensions.cs:7-12 | returns the fallback on an error, else the value that Value would return; it never raises |
| Projections.ValueOrNull | MaybeError/MaybeExtensions.cs:14-19 | returns null (None) exactly on an error, else the value that Value would return |
| Projections.As | MaybeError/MaybeExtensions.cs:21-24 | on an error raises the error's exception; otherwise returns the function applied to the value |
| Projections.AsOrNull | MaybeError/MaybeExtensions.cs:26-31 | returns null (None) exactly on an error, else what As would return; it never raises |
| Projections.AsOrDefault | MaybeError/MaybeExtensions.cs:33-38 | returns the fallback on an error, else what As would return; it never raises |
| Projections.ValueOrDefaultIsValueOrNull | MaybeError/MaybeExtensions.cs:41-53 | the fallback overload of ValueOrDefault is the null overload with null replaced by the fallback |
| Projections.AsOrDefaultIsAsOrNull | MaybeError/MaybeExtensions.cs:60-72 | the fallback overload of AsOrDefault is the null overload with null replaced by the fallback |
| Projections.AsOrNullIsAsOrDefault | MaybeError/MaybeExtensions.cs:60-65 | the null overload is AsOrDefault into the optional type with null as fallback |
| Projections.IdentityProjection | MaybeError/Maybe.cs:15-32 | mapping the identity reduces As to Value and the defaulting maps to ValueOrDefault |
| Projections.ErrorIgnoresProjection | MaybeError/Maybe.cs:29-46 | on an error As raises whatever the function, and the defaulting forms return their fallback, so the function is never applied |
| Scenarios.StringValueScenario | MaybeErrorTests/MaybeTests.cs:9-17 | a string outcome of "Test" reads "Test" everywhere and maps its length to 4 |
| Scenarios.StringExceptionScenario | MaybeErrorTests/MaybeTests.cs:20-28 | an invalid-operation outcome raises that class on Value and As, and defaults to null, "Err", 0 and -4 |
| Scenarios.ExplicitExceptionErrorScenario | MaybeErrorTests/MaybeTests.cs:50-55 | an explicit ExceptionError re-raises its exception's class |
| Scenarios.PlainErrorScenario | MaybeErrorTests/MaybeTests.cs:58-67 | a plain "Test Error" raises exactly the base exception class and keeps its message |
| Scenarios.IntValueScenario | MaybeErrorTests/ValueMaybeTests.cs:8-16 | an int outcome of 1 reads 1 everywhere and maps through any function to its image of 1 |
| Scenarios.IntExceptionScenario | MaybeErrorTests/ValueMaybeTests.cs:19-27 | an int invalid-operation outcome raises that class and defaults to null, 3 and "err" |

The flavours repeat the cited lines elsewhere:

- `Maybe.cs` lines 54-56 and 181-183, and `ValueMaybe.cs` lines 13, 23-25, 83-85 and 154-156, are the same properties as `Outcomes.HasValue` and `Outcomes.Value`.
- `ValueMaybe.cs` lines 40-44, 49-54, 100-124 and 32-35/92-95/162-165 are the same constructors as `Outcomes.FromValue`, `Outcomes.FromError`, `Outcomes.FromException` and `Outcomes.Default`.
- The non-generic `ExceptionError` (`ExceptionError.cs` lines 3-11) forwards both constructors to the generic one, so `Errors.ExceptionError` and `Errors.ExceptionErrorWithMessage` model it too.

## Left out

- `AsyncExtensions.cs`: each adapter awaits a `Task`/`ValueTask` and then applies the synchronous projection to the resolved outcome. Only scheduling is added, and scheduling is not modelled.
- Widening conversions (`Maybe.cs` lines 96-104 and 162-165, `ValueMaybe.cs` lines 66-69 and 196-204): each body is `return value;`. That converts the argument with the same user-defined operator, so as written each one calls itself without end. The code makes no content-preserving promise to verify, so these conversions are not modelled.
- `MaybeEx(Ex e)` and `ValueMaybeEx(Ex e)` assign an `Ex` to a property of type `ExceptionError<Ex>`. No conversion between those types exists in the library (`Maybe.cs`, `ValueMaybe.cs`, `Errors/Error.cs`, `Errors/ExceptionError.cs`). The model takes the evident intent, wrapping in an exception error, which is `Outcomes.FromException`.
- The `init` accessors on `Error` (`Maybe.cs` lines 55 and 120, `ValueMaybe.cs` line 155) would let an initializer set an error without setting `HasError`. The model's outcomes are built only by their constructors.
- The settable `Exception` property of `ExceptionError` (`ExceptionError.cs` line 15): errors are immutable in the model.
- Errors.GetException: that the exception of a plain error is a newly allocated object is not tracked. Its identity is whatever the caller passes as `rt.freshId`. Nothing makes that id differ from the ids of other exceptions in play, and nothing advances it, so two reads of `Value` on one plain-error outcome under one `Runtime` raise equal values, where C# allocates a distinct object on each read.
- Outcomes.Value: raising keeps the exception's identity, class and message, but not the stack trace the runtime records when it throws. `Thrown(x)` carries `x` as it was before the throw. This applies to `Outcomes.Unwrap` and `Projections.As` as well. A plain error's raised exception therefore has no stack trace in the model. A rethrown wrapped exception keeps its earlier trace, whereas C# replaces it.
- Stack capture, `Exception.StackTrace` and `Exception.ToString()`: all three are opaque. The captured trace is the `trace` argument of `Errors.NewError`. The stack trace is a field of `Exception`. An exception's string form is the `exceptionText` parameter of `Errors.Render`.
- `#if DEBUG` is the `debug` flag of `Runtime`, or the `debug` parameter of the rendering functions.
- Nullability attributes (`MemberNotNullWhen`) are compile-time annotations only.
- The static error type parameter (`E`, `Ex`): every error is an `Errors.Error`. Error subclasses other than `ExceptionError` are not part of this model.
- Projection functions are total and pure. A projection that itself throws, and the order of its side effects, are not modelled.
- Null payloads: a success outcome holding a null reference is `Ok(v)` for a `T` value standing for null. `ValueOrNull` then returns `Some(v)`, whereas C# returns null, which looks the same as the error case. Likewise, when the projection returns null on a success, C#'s one-argument `AsOrDefault` returns null, whereas `AsOrNull` returns `Some` of the value standing for null.
- The struct-receiver and class-receiver overloads of each projection have the same body. Each is defined once, so their agreement holds by construction and has no separate lemma.
- The test project's `value == "Test"` comparisons go through the unwrap operator and are covered by `Outcomes.Unwrap`. The int-to-string mapping in the value scenarios is the parameter `show`.

=== FILE: errors.dfy ===
/** The error model: an immutable record of a message, optional details and
    optional developer details, which either describes a failure directly
    (a plain error) or wraps an exception raised elsewhere. The class
    hierarchy's one overridden behaviour, turning the error into an
    exception, becomes a match on `origin`. */
module Errors {
  import opened Wrappers
  import opened Exceptions
  import opened Text

  /** Where an error came from. A plain error keeps the stack trace captured
      when it was built (shown in diagnostic builds only); an exception
      error keeps the very exception object it wraps. */
  datatype Origin = Plain(trace: string) | Wrapped(exception: Exception)

  datatype Error = Error(
    message: string,
    details: Option<string>,
    devDetails: Option<string>,
    origin: Origin)

  /** A plain error, built from its message and optional details; `trace` is
      the text of the stack captured at construction. Details and developer
      details are absent unless given. */
  function NewError(message: string, trace: string,
                    details: Option<string> := None,
                    devDetails: Option<string> := None): (e: Error)
    ensures e.message == message && e.details == details && e.devDetails == devDetails
    ensures e.origin == Plain(trace)
    ensures SingleLine(message) ==> Lines(ErrorText(e, false))[0] == message
  {
    var e := Error(message, details, devDetails, Plain(trace));
    if SingleLine(message) then
      FirstLineOf(message, TextOf(details));
      e
    else e
  }

  /** An exception error built from the exception alone: the message is the
      exception's message, there are no details, and the developer details
      are the exception's stack trace. */
  function ExceptionError(exception: Exception): (e: Error)
    ensures e.message == exception.message
    ensures e.details == None
    ensures e.devDetails == exception.stackTrace
    ensures e.origin == Wrapped(exception)
    ensures forall rt :: GetException(e, rt) == exception
  {
    Error(exception.message, None, exception.stackTrace, Wrapped(exception))
  }

  /** An exception error with an explicit message: the exception's own
      message becomes the details, its stack trace the developer details. */
  function ExceptionErrorWithMessage(message: string, exception: Exception): (e: Error)
    ensures e.message == message
    ensures e.details == Some(exception.message)
    ensures e.devDetails == exception.stackTrace
    ensures e.origin == Wrapped(exception)
    ensures forall rt :: GetException(e, rt) == exception
  {
    Error(message, Some(exception.message), exception.stackTrace, Wrapped(exception))
  }

  /** The base class's string form. A release build shows the message and
      the details joined by a newline; a diagnostic build adds the developer details
      and the captured trace. Absent fields print as empty text. */
  function ErrorText(e: Error, debug: bool): (r: string)
    ensures e.message + "\n" <= r
    ensures !debug ==> Join([e.message, TextOf(e.details)]) == r
    ensures debug && e.origin.Plain? ==>
      Join([e.message, TextOf(e.details), TextOf(e.devDetails), "Trace:" + e.origin.trace]) == r
  {
    var trace := match e.origin
      case Plain(t) => t
      case Wrapped(_) => "";
    if debug then
      var r := e.message + "\n" + TextOf(e.details) + "\n" + TextOf(e.devDetails) + "\nTrace:" + trace;
      var lines := [e.message, TextOf(e.details), TextOf(e.devDetails), "Trace:" + trace];
      assert Join(lines[2..]) == TextOf(e.devDetails) + "\n" + ("Trace:" + trace) by {
        assert lines[2..][1..] == ["Trace:" + trace];
      }
      assert Join(lines[1..]) == TextOf(e.details) + "\n" + Join(lines[2..]) by {
        assert lines[1..][1..] == lines[2..];
      }
      assert Join(lines) == r;
      r
    else
      e.message + "\n" + TextOf(e.details)
  }

  /** The error's string form, as the overriding class chooses it: a plain
      error uses `ErrorText`; an exception error prints its message and then
      the wrapped exception's own string form, which `exceptionText` supplies,
      in every build mode. The implicit conversion to string is this too. */
  function Render(e: Error, debug: bool, exceptionText: Exception -> string): (r: string)
    ensures e.message + "\n" <= r
    ensures e.origin.Plain? ==> r == ErrorText(e, debug)
    ensures e.origin.Wrapped? ==> Join([e.message, exceptionText(e.origin.exception)]) == r
  {
    match e.origin
    case Plain(_) => ErrorText(e, debug)
    case Wrapped(x) => e.message + "\n" + exceptionText(x)
  }

  /** The exception that stands for this error when it is raised. A plain
      error yields an object of exactly the base exception class with
      identity `rt.freshId`, whose message is the error's message in a release build and the whole
      `ErrorText` in a diagnostic one. An exception error hands back the
      object it wraps, unchanged. */
  function GetException(e: Error, rt: Runtime): (x: Exception)
    ensures e.origin.Wrapped? ==> x == e.origin.exception
    ensures e.origin.Plain? ==> x.kind == BaseException && x.id == rt.freshId && x.stackTrace == None
    ensures e.origin.Plain? && !rt.debug ==> x.message == e.message
    ensures e.origin.Plain? && rt.debug ==> x.message == ErrorText(e, true)
  {
    match e.origin
    case Plain(_) =>
      Exception(rt.freshId, BaseException, if rt.debug then ErrorText(e, true) else e.message, None)
    case Wrapped(x) => x
  }

  /** A log sink reading a release-build rendering of a plain error gets back
      exactly the message and the details, when both are single lines. */
  lemma ReleaseTextRoundTrip(e: Error)
    requires SingleLine(e.message) && SingleLine(TextOf(e.details))
    ensures Lines(ErrorText(e, false)) == [e.message, TextOf(e.details)]
  {
    LinesOfJoin([e.message, TextOf(e.details)]);
  }

  /** In a diagnostic build the rendering of a plain error reads back with
      the message, the details and the developer details as its first three
      lines, when each is a single line, and then exactly the lines of
      "Trace:" followed by the captured trace, however many lines it has. */
  lemma DebugTextRoundTrip(e: Error)
    requires e.origin.Plain?
    requires SingleLine(e.message) && SingleLine(TextOf(e.details))
    requires SingleLine(TextOf(e.devDetails))
    ensures Lines(ErrorText(e, true)) ==
      [e.message, TextOf(e.details), TextOf(e.devDetails)] + Lines("Trace:" + e.origin.trace)
  {
    var fields := [e.message, TextOf(e.details), TextOf(e.devDetails)];
    var trace := "Trace:" + e.origin.trace;
    assert AllSingleLines(fields);
    assert Join(fields) == e.message + "\n" + TextOf(e.details) + "\n" + TextOf(e.devDetails) by {
      assert Join(fields[1..]) == TextOf(e.details) + "\n" + TextOf(e.devDetails) by {
        assert fields[1..][1..] == [TextOf(e.devDetails)];
      }
      assert Join(fields) == e.message + "\n" + Join(fields[1..]);
    }
    assert ErrorText(e, true) == Join(fields) + "\n" + trace;
    LinesAfterJoin(fields, trace);
  }

  /** Whatever the kind of error and the build mode, the first line of its
      rendering is its message, when the message is a single line. */
  lemma RenderLeadsWithMessage(e: Error, debug: bool, exceptionText: Exception -> string)
    requires SingleLine(e.message)
    ensures Lines(Render(e, debug, exceptionText))[0] == e.message
  {
    var r := Render(e, debug, exceptionText);
    assert r == e.message + "\n" + r[|e.message| + 1..];
    FirstLineOf(e.message, r[|e.message| + 1..]);
  }

  /** An exception error renders the same in release and diagnostic builds. */
  lemma WrappedRenderIgnoresMode(e: Error, exceptionText: Exception -> string)
    requires e.origin.Wrapped?
    ensures Render(e, true, exceptionText) == Render(e, false, exceptionText)
  {
  }

  /** In a diagnostic build the exception raised for a plain error carries
      the message and details as its first two lines, when both are single
      lines. */
  lemma DebugExceptionShowsDetails(e: Error, rt: Runtime)
    requires e.origin.Plain? && rt.debug
    requires SingleLine(e.message) && SingleLine(TextOf(e.details))
    ensures Lines(GetException(e, rt).message)[..2] == [e.message, TextOf(e.details)]
  {
    var details := TextOf(e.details);
    var rest := TextOf(e.devDetails) + "\nTrace:" + e.origin.trace;
    assert GetException(e, rt).message == e.message + "\n" + details + "\n" + rest;
    FirstTwoLines(e.message, details, rest);
  }
}

=== FILE: exceptions.dfy ===
/** The host platform's exception objects, seen from outside: which class
    an exception is, its message, its stack trace, and an identity that
    tells two objects apart even when their contents agree. Raising is an
    evaluation outcome rather than control flow. */
module Exceptions {
  import opened Wrappers

  /** The run-time class of an exception: exactly the base exception class,
      or some class derived from it (named, e.g. "InvalidOperationException"). */
  datatype ExceptionKind = BaseException | Derived(name: string)

  /** An exception object. `id` is its object identity; `stackTrace` is the
      trace it carries, absent for an object that has never been thrown.
      Raising an exception does not update this field. */
  datatype Exception = Exception(
    id: nat,
    kind: ExceptionKind,
    message: string,
    stackTrace: Option<string>)

  /** The result of evaluating something that may raise. */
  datatype Eval<+R> = Returned(value: R) | Thrown(exception: Exception)

  /** What the surrounding process decides: whether the library was built in
      diagnostic (debug) mode, and the identity the runtime gives the next
      exception object it allocates. */
  datatype Runtime = Runtime(debug: bool, freshId: nat)
}

=== FILE: outcomes.dfy ===
/** The outcome types: a value or an error, never both. The reference and
    value flavours (`Maybe`, `ValueMaybe`) and their exception-typed
    companions (`MaybeEx`, `ValueMaybeEx`) differ only in storage layout and
    in the static type of their error, so they share this one datatype; an
    exception-typed outcome is one whose error wraps an exception. */
module Outcomes {
  import opened Wrappers
  import opened Exceptions
  import opened Errors

  datatype Outcome<+T> = Ok(value: T) | Err(error: Error)

  /** The discriminant every flavour stores. */
  predicate HasError<T>(o: Outcome<T>)
  {
    o.Err?
  }

  /** Whether the outcome holds a value: the negation of `HasError` in every
      flavour, including an outcome built by the parameterless constructor. */
  predicate HasValue<T>(o: Outcome<T>)
    ensures HasValue(o) <==> !HasError(o)
  {
    o.Ok?
  }

  /** The `Error` property: present exactly when the outcome has an error. */
  function ErrorOf<T>(o: Outcome<T>): (r: Option<Error>)
    ensures r.Some? <==> HasError(o)
    ensures r.Some? ==> o == Err(r.value)
  {
    match o
    case Ok(_) => None
    case Err(e) => Some(e)
  }

  /** The outcomes of the exception-typed flavours: every error they hold
      wraps an exception. */
  predicate IsExceptionTyped<T>(o: Outcome<T>)
  {
    o.Err? ==> o.error.origin.Wrapped?
  }

  /** The `Value` property: the stored value, or, on an error outcome, the
      raise of the error's exception. */
  function Value<T>(o: Outcome<T>, rt: Runtime): (r: Eval<T>)
    ensures r.Thrown? <==> HasError(o)
    ensures r.Thrown? ==> r.exception == GetException(o.error, rt)
    ensures r.Returned? ==> o == Ok(r.value)
  {
    match o
    case Ok(v) => Returned(v)
    case Err(e) => Thrown(GetException(e, rt))
  }

  /** Construction from a value (also the implicit conversion from T). */
  function FromValue<T>(v: T): (o: Outcome<T>)
    ensures HasValue(o) && !HasError(o) && ErrorOf(o) == None
    ensures forall rt :: Value(o, rt) == Returned(v)
  {
    Ok(v)
  }

  /** Construction from an error (also the implicit conversion from the
      error type). */
  function FromError<T>(e: Error): (o: Outcome<T>)
    ensures HasError(o) && !HasValue(o) && ErrorOf(o) == Some(e)
    ensures forall rt :: Value(o, rt) == Thrown(GetException(e, rt))
  {
    Err(e)
  }

  /** Construction from an exception (also the implicit conversion from an
      exception): the exception is wrapped in an exception error, so reading
      `Value` raises that very exception object again. */
  function FromException<T>(x: Exception): (o: Outcome<T>)
    ensures HasError(o) && IsExceptionTyped(o)
    ensures ErrorOf(o) == Some(ExceptionError(x))
    ensures forall rt :: Value(o, rt) == Thrown(x)
  {
    Err(ExceptionError(x))
  }

  /** The parameterless constructor. It is not a third state: the error flag
      stays false, so the outcome has a value, namely `dflt`, the language's
      default for T (null for a reference type, zero for a number). */
  function Default<T>(dflt: T): (o: Outcome<T>)
    ensures o == FromValue(dflt)
  {
    Ok(dflt)
  }

  /** The implicit conversion from an outcome to T: raise the error's
      exception when there is an error, else read `Value`. */
  function Unwrap<T>(o: Outcome<T>, rt: Runtime): (r: Eval<T>)
    ensures r == Value(o, rt)
  {
    if HasError(o) then Thrown(GetException(o.error, rt)) else Value(o, rt)
  }

  /** Wrapping a value and unwrapping it gives the value back. */
  lemma WrapThenUnwrap<T>(v: T, rt: Runtime)
    ensures Unwrap(FromValue(v), rt) == Returned(v)
  {
  }

  /** Unwrapping a success outcome and wrapping the value again rebuilds the
      outcome; unwrapping an error outcome raises its error's exception. */
  lemma UnwrapThenWrap<T>(o: Outcome<T>, rt: Runtime)
    ensures Unwrap(o, rt).Returned? ==> FromValue(Unwrap(o, rt).value) == o
    ensures Unwrap(o, rt).Thrown? ==> o == FromError(o.error)
  {
  }

  /** A plain error raises an object of exactly the base exception class
      carrying the error's message in a release build; an exception outcome
      raises its original exception, whose class is kept. */
  lemma ThrownKinds<T>(o: Outcome<T>, rt: Runtime)
    requires HasError(o)
    ensures o.error.origin.Plain? ==> Value(o, rt).exception.kind == BaseException
    ensures o.error.origin.Plain? && !rt.debug ==> Value(o, rt).exception.message == o.error.message
    ensures o.error.origin.Wrapped? ==> Value(o, rt).exception == o.error.origin.exception
  {
  }
}

=== FILE: projections.dfy ===
/** The projection operations every outcome offers: reading the value with
    a fallback, and mapping it through a function with or without one. The
    source defines each three times (interface defaults on `IMaybe`, and
    extension methods on `IValueMaybe` and on `IMaybe`) with the same body;
    here each is defined once over the collapsed outcome. The `OrDefault` family never reads
    `Value` on an error, so its results are plain values, not evaluations
    that might raise; `As` reads `Value` first and so raises. */
module Projections {
  import opened Wrappers
  import opened Exceptions
  import opened Errors
  import opened Outcomes

  /** The value, or `fallback` on an error. */
  function ValueOrDefault<T>(o: Outcome<T>, fallback: T): (r: T)
    ensures HasError(o) ==> r == fallback
    ensures !HasError(o) ==> forall rt :: Value(o, rt) == Returned(r)
  {
    if HasError(o) then fallback else o.value
  }

  /** The value, or null (None) on an error. */
  function ValueOrNull<T>(o: Outcome<T>): (r: Option<T>)
    ensures r.None? <==> HasError(o)
    ensures r.Some? ==> forall rt :: Value(o, rt) == Returned(r.value)
  {
    if HasError(o) then None else Some(o.value)
  }

  /** `project` applied to the value. The value is read first, so on an error
      this raises the error's exception and `project` is never applied. */
  function As<T, R>(o: Outcome<T>, project: T -> R, rt: Runtime): (r: Eval<R>)
    ensures HasError(o) ==> r == Thrown(GetException(o.error, rt))
    ensures !HasError(o) ==> r == Returned(project(o.value))
  {
    match Value(o, rt)
    case Returned(v) => Returned(project(v))
    case Thrown(x) => Thrown(x)
  }

  /** `project` applied to the value, or null (None) on an error. */
  function AsOrNull<T, R>(o: Outcome<T>, project: T -> R): (r: Option<R>)
    ensures r.None? <==> HasError(o)
    ensures r.Some? ==> forall rt :: As(o, project, rt) == Returned(r.value)
  {
    if HasError(o) then None else Some(project(o.value))
  }

  /** `project` applied to the value, or `fallback` on an error. With
      `fallback` the language's default for R (zero for a number) it is also
      the one-argument overload at a value-type result. */
  function AsOrDefault<T, R>(o: Outcome<T>, project: T -> R, fallback: R): (r: R)
    ensures HasError(o) ==> r == fallback
    ensures !HasError(o) ==> forall rt :: As(o, project, rt) == Returned(r)
  {
    if HasError(o) then fallback else project(o.value)
  }

  /** The fallback overload is the null-returning one with its null replaced
      by the fallback. */
  lemma ValueOrDefaultIsValueOrNull<T>(o: Outcome<T>, fallback: T)
    ensures ValueOrDefault(o, fallback) == GetOr(ValueOrNull(o), fallback)
  {
  }

  /** Mapping with a fallback agrees with mapping to null then falling back. */
  lemma AsOrDefaultIsAsOrNull<T, R>(o: Outcome<T>, project: T -> R, fallback: R)
    ensures AsOrDefault(o, project, fallback) == GetOr(AsOrNull(o, project), fallback)
  {
  }

  /** Mapping to null is mapping into the optional type with null as the
      fallback: the language's default for a reference result is null. */
  lemma AsOrNullIsAsOrDefault<T, R>(o: Outcome<T>, project: T -> R)
    ensures AsOrNull(o, project) == AsOrDefault(o, x => Some(project(x)), None)
  {
  }

  /** Mapping the identity reads the value: `As` with the identity is
      `Value`, and the defaulting forms reduce to `ValueOrDefault`. */
  lemma IdentityProjection<T>(o: Outcome<T>, fallback: T, rt: Runtime)
    ensures As(o, x => x, rt) == Value(o, rt)
    ensures AsOrDefault(o, x => x, fallback) == ValueOrDefault(o, fallback)
    ensures AsOrNull(o, x => x) == ValueOrNull(o)
  {
  }

  /** On an error, `As` raises the same exception whatever the function, so
      the function is never consulted; the defaulting forms ignore it too. */
  lemma ErrorIgnoresProjection<T, R>(o: Outcome<T>, f: T -> R, g: T -> R, fallback: R, rt: Runtime)
    requires HasError(o)
    ensures As(o, f, rt) == As(o, g, rt) && As(o, f, rt).Thrown?
    ensures AsOrDefault(o, f, fallback) == AsOrDefault(o, g, fallback) == fallback
    ensures AsOrNull(o, f) == AsOrNull(o, g) == None
  {
  }
}

=== FILE: scenarios.dfy ===
/** The library's own usage scenarios, restated over the model: a string
    payload for the reference flavour and an int payload for the value
    flavour, each with a value, with an "invalid operation" exception and
    with a plain error. */
module Scenarios {
  import opened Wrappers
  import opened Exceptions
  import opened Errors
  import opened Outcomes
  import opened Projections

  const InvalidOperation: ExceptionKind := Derived("InvalidOperationException")

  /** A string outcome built from "Test" has a value, no error, and every
      read of it sees "Test"; mapping its length gives 4. */
  lemma StringValueScenario(rt: Runtime)
    ensures var o := FromValue<string>("Test");
      && HasValue(o) && ErrorOf(o) == None
      && Value(o, rt) == Returned("Test")
      && Unwrap(o, rt) == Returned("Test")
      && ValueOrNull(o) == Some("Test")
      && ValueOrDefault(o, "Err") == "Test"
      && As(o, (s: string) => |s|, rt) == Returned(4)
      && AsOrDefault(o, (s: string) => |s|, 0) == 4
      && AsOrDefault(o, (s: string) => |s|, -4) == 4
  {
  }

  /** A string outcome built from an invalid-operation exception has an
      error; reading it, directly or through `As`, raises an exception of
      that same class, while the defaulting reads give null, 0 and -4. */
  lemma StringExceptionScenario(x: Exception, rt: Runtime)
    requires x.kind == InvalidOperation
    ensures var o := FromException<string>(x);
      && HasError(o) && ErrorOf(o).Some?
      && Value(o, rt).Thrown? && Value(o, rt).exception.kind == InvalidOperation
      && As(o, (s: string) => |s|, rt).Thrown?
      && As(o, (s: string) => |s|, rt).exception.kind == InvalidOperation
      && ValueOrNull(o) == None
      && ValueOrDefault(o, "Err") == "Err"
      && AsOrDefault(o, (s: string) => |s|, 0) == 0
      && AsOrDefault(o, (s: string) => |s|, -4) == -4
  {
  }

  /** An explicitly built exception error also re-raises its exception's
      class, in both flavours. */
  lemma ExplicitExceptionErrorScenario(x: Exception, rt: Runtime)
    requires x.kind == InvalidOperation
    ensures Value(FromError<string>(ExceptionError(x)), rt).exception.kind == InvalidOperation
    ensures Value(FromError<int>(ExceptionError(x)), rt).exception.kind == InvalidOperation
  {
  }

  /** An outcome built from the plain error "Test Error" raises an exception
      of exactly the base class, and its error keeps the message. */
  lemma PlainErrorScenario(trace: string, rt: Runtime)
    ensures var o := FromError<string>(NewError("Test Error", trace));
      && HasError(o)
      && Value(o, rt).Thrown? && Value(o, rt).exception.kind == BaseException
      && ErrorOf(o).value.message == "Test Error"
    ensures var o := FromError<int>(NewError("Test Error", trace));
      && HasError(o)
      && Value(o, rt).Thrown? && Value(o, rt).exception.kind == BaseException
      && ErrorOf(o).value.message == "Test Error"
  {
  }

  /** An int outcome built from 1 reads as 1; mapped through `show` it gives
      `show(1)` whichever projection is used. */
  lemma IntValueScenario(show: int -> string, rt: Runtime)
    ensures var o := FromValue<int>(1);
      && HasValue(o) && ErrorOf(o) == None
      && Value(o, rt) == Returned(1)
      && Unwrap(o, rt) == Returned(1)
      && ValueOrNull(o) == Some(1)
      && ValueOrDefault(o, 3) == 1
      && As(o, show, rt) == Returned(show(1))
      && AsOrNull(o, show) == Some(show(1))
      && AsOrDefault(o, show, "err") == show(1)
  {
  }

  /** An int outcome built from an invalid-operation exception raises that
      class on reads and `As`, and defaults to null, 3 and "err". */
  lemma IntExceptionScenario(x: Exception, show: int -> string, rt: Runtime)
    requires x.kind == InvalidOperation
    ensures var o := FromException<int>(x);
      && HasError(o) && ErrorOf(o).Some?
      && Value(o, rt).Thrown? && Value(o, rt).exception.kind == InvalidOperation
      && As(o, show, rt).Thrown? && As(o, show, rt).exception.kind == InvalidOperation
      && ValueOrNull(o) == None
      && ValueOrDefault(o, 3) == 3
      && AsOrNull(o, show) == None
      && AsOrDefault(o, show, "err") == "err"
  {
  }
}

=== FILE: text.dfy ===
/** Line-oriented text: the rendering of an error is a sequence of fields
    joined by newline characters, and a log sink that reads it back splits
    it at those characters. `Join` and `Lines` are that pair. */
module Text {
  import opened Wrappers

  /** No newline character occurs in `s`. */
  predicate SingleLine(s: string)
  {
    '\n' !in s
  }

  /** Every element of `lines` is a single line. */
  predicate AllSingleLines(lines: seq<string>)
  {
    forall i :: 0 <= i < |lines| ==> SingleLine(lines[i])
  }

  /** `lines` joined with one newline between neighbours. */
  function Join(lines: seq<string>): string
    decreases |lines|
  {
    if |lines| == 0 then ""
    else if |lines| == 1 then lines[0]
    else lines[0] + "\n" + Join(lines[1..])
  }

  /** Splits `s` at its first newline into the text before it and the text
      after it; None when `s` holds no newline. */
  function SplitAtNewline(s: string): (r: Option<(string, string)>)
    ensures r.None? <==> SingleLine(s)
    ensures r.Some? ==> SingleLine(r.value.0) && s == r.value.0 + "\n" + r.value.1
  {
    if |s| == 0 then None
    else if s[0] == '\n' then
      assert s == [] + "\n" + s[1..];
      Some(([], s[1..]))
    else
      match SplitAtNewline(s[1..])
      case None => None
      case Some((head, tail)) =>
        assert s == [s[0]] + s[1..];
        Some(([s[0]] + head, tail))
  }

  /** The lines of `s`: the maximal newline-free pieces, in order. */
  function Lines(s: string): (r: seq<string>)
    ensures |r| >= 1
    ensures AllSingleLines(r)
    ensures Join(r) == s
    decreases |s|
  {
    match SplitAtNewline(s)
    case None => [s]
    case Some((head, tail)) =>
      var rest := Lines(tail);
      assert ([head] + rest)[1..] == rest;
      [head] + rest
  }

  /** Splitting a line, a newline and any text finds exactly that line. */
  lemma {:induction false} SplitJoined(head: string, tail: string)
    requires SingleLine(head)
    ensures SplitAtNewline(head + "\n" + tail) == Some((head, tail))
  {
    var s := head + "\n" + tail;
    if head == [] {
      assert s[0] == '\n' && s[1..] == tail;
    } else {
      assert s[0] == head[0] != '\n';
      assert s[1..] == head[1..] + "\n" + tail;
      SplitJoined(head[1..], tail);
      assert [head[0]] + head[1..] == head;
    }
  }

  /** Reading back a join of single lines gives those lines again. */
  lemma {:induction false} LinesOfJoin(lines: seq<string>)
    requires |lines| >= 1
    requires AllSingleLines(lines)
    ensures Lines(Join(lines)) == lines
    decreases |lines|
  {
    if |lines| == 1 {
      assert SingleLine(lines[0]);
    } else {
      assert SingleLine(lines[0]);
      SplitJoined(lines[0], Join(lines[1..]));
      LinesOfJoin(lines[1..]);
      assert [lines[0]] + lines[1..] == lines;
    }
  }

  /** A line, a newline and any text read back as that line followed by the
      lines of the text. */
  lemma LinesCons(head: string, tail: string)
    requires SingleLine(head)
    ensures Lines(head + "\n" + tail) == [head] + Lines(tail)
  {
    SplitJoined(head, tail);
  }

  /** Joining a line in front of a non-empty list puts a newline between. */
  lemma JoinCons(head: string, more: seq<string>)
    requires |more| >= 1
    ensures Join([head] + more) == head + "\n" + Join(more)
  {
    assert ([head] + more)[1..] == more;
  }

  /** Dropping the first of some single lines leaves single lines. */
  lemma AllSingleLinesTail(lines: seq<string>)
    requires |lines| >= 1 && AllSingleLines(lines)
    ensures SingleLine(lines[0]) && AllSingleLines(lines[1..])
  {
    forall i | 0 <= i < |lines| - 1 ensures SingleLine(lines[1..][i]) {
      assert lines[1..][i] == lines[i + 1];
    }
  }

  /** Single lines joined, then a newline and any text: the lines read back
      are those lines followed by the lines of that text. */
  lemma {:induction false} LinesAfterJoin(lines: seq<string>, rest: string)
    requires |lines| >= 1
    requires AllSingleLines(lines)
    ensures Lines(Join(lines) + "\n" + rest) == lines + Lines(rest)
    decreases |lines|
  {
    AllSingleLinesTail(lines);
    var head, more := lines[0], lines[1..];
    if |more| == 0 {
      LinesCons(head, rest);
      assert lines == [head];
    } else {
      var tail := Join(more) + "\n" + rest;
      JoinThenLine(head, more, rest);
      LinesCons(head, tail);
      LinesAfterJoin(more, rest);
      ConsAppend(head, more, Lines(rest));
      assert [head] + more == lines;
    }
  }

  /** Joining more lines after `head`, then a newline and `rest`, is `head`,
      a newline, and the join of the others followed by `rest`. */
  lemma JoinThenLine(head: string, more: seq<string>, rest: string)
    requires |more| >= 1
    ensures Join([head] + more) + "\n" + rest == head + "\n" + (Join(more) + "\n" + rest)
  {
    JoinCons(head, more);
    AppendLine(Join([head] + more), head, Join(more), rest);
  }

  /** A newline and `rest` appended to `head + "\n" + body` regroup onto the
      body. Kept apart from `Join` so that the regrouping is cheap to prove. */
  lemma AppendLine(joined: string, head: string, body: string, rest: string)
    requires joined == head + "\n" + body
    ensures joined + "\n" + rest == head + "\n" + (body + "\n" + rest)
  {
  }

  /** Prepending an element and appending a sequence can be done in either order. */
  lemma ConsAppend<X>(x: X, s: seq<X>, t: seq<X>)
    ensures [x] + (s + t) == ([x] + s) + t
  {
  }

  /** Whatever follows, the first line of `head + "\n" + tail` is `head`. */
  lemma FirstLineOf(head: string, tail: string)
    requires SingleLine(head)
    ensures Lines(head + "\n" + tail)[0] == head
  {
    SplitJoined(head, tail);
  }

  /** The first two lines of `first + "\n" + second + "\n" + rest` are `first`
      and `second`, whatever `rest` holds. */
  lemma FirstTwoLines(first: string, second: string, rest: string)
    requires SingleLine(first) && SingleLine(second)
    ensures Lines(first + "\n" + second + "\n" + rest)[..2] == [first, second]
  {
    var tail := second + "\n" + rest;
    assert first + "\n" + second + "\n" + rest == first + "\n" + tail;
    LinesCons(first, tail);
    FirstLineOf(second, rest);
    assert Lines(tail)[0] == second;
    assert Lines(first + "\n" + tail) == [first] + Lines(tail);
  }
}

=== FILE: wrappers.dfy ===
/** Optional values, standing in for the null of a nullable reference or of
    a `Nullable<T>`. */
module Wrappers {

  datatype Option<+T> = None | Some(value: T)

  /** The carried value, or `fallback` when there is none. */
  function GetOr<T>(o: Option<T>, fallback: T): T
  {
    match o
    case Some(v) => v
    case None => fallback
  }

  /** What string interpolation prints for a nullable string: the text
      itself, or nothing at all for null. */
  function TextOf(s: Option<string>): string
  {
    GetOr(s, "")
  }
}
